=== FILE: README.md ===
# bt-printer gateway core, in Dafny

A model of the logic inside `MainActivity.kt` of the Bluetooth printer gateway: an Android app
that receives print jobs over a WebSocket and forwards each one to a paired ESC/POS thermal
printer over an RFCOMM (Serial Port Profile) socket. The model covers four pieces of that logic.

- **Gateway URL** (`gateway_url.dfy`, module `GatewayUrl`). The challenge code is appended to the
  server URL as an `id` query parameter. The separator is `?`, or `&` when the URL already has a `?`.
- **Controller** (`controller.dfy`, module `Controller`). The remembered state of `PrinterApp`
  (`isConnected`, the active WebSocket, the selected device, the status text, the input fields) is an
  immutable `App` record. Each user action and each `WebSocketListener` callback is a transition that
  returns the new state and the effects it asks for, in order: toast, open socket, close socket,
  call printText, or show an intermediate status. `Next` dispatches one event and `Run` folds a sequence.
- **printText** (`printer.dfy`, module `Printer`). The Bluetooth socket is abstract. `PrintText`
  records every socket operation it performs (Create, Connect, Write, Flush, Close). An `Env` value
  says which calls throw `IOException`, the SDK level, and whether BLUETOOTH_CONNECT is granted.
  `dispatch.dfy` (module `Dispatch`) joins this to the controller: a frame or a Print press runs
  `PrintText`, and its result drives the status.
- **Status colour** (`status_color.dfy`, module `StatusColor`). Classifies the status card by
  priority: "Error"/"Gagal" first (red), then "Terhubung"/"Berhasil" (green), else neutral.
  The lemmas state the colour of every status text the controller can show.

`options.dfy` and `text.dfy` hold the helpers: nullable values, Kotlin's `contains` and `isBlank`.
`isBlank` uses the JVM meaning of `Char.isWhitespace`, which is `Character.isWhitespace` or
`Character.isSpaceChar`.

Three behaviours of the code are easy to miss:
- Pressing the button again before `onOpen` fires opens a second WebSocket. The first handle is
  dropped without being closed (`Controller.ReconnectWhileConnecting`). Callbacks from any socket,
  the dropped one included, still change `isConnected` and the status.
- `onClosing` and `onFailure` only clear `isConnected`. `activeWebSocket` keeps the old handle.
- One button does both jobs: it connects whenever `isConnected` is false and disconnects when it is
  true. A second press after a disconnect therefore dials again.

## Model

| member | source | states |
|---|---|---|
| GatewayUrl.WithChallenge | app/src/main/java/com/example/btprinter/MainActivity.kt:190-191 | the target starts with the server URL and ends with `id=` plus the code; between them is `&` exactly when the server URL already holds `?`, else `?` |
| GatewayUrl.QueryOfWithChallenge | app/src/main/java/com/example/btprinter/MainActivity.kt:188-191 | the target's query (text after its first `?`) is `id=<code>` for a base without a query, else the base's own query followed by `&id=<code>`; a `#` fragment is not looked at, so for a base with one the code lands after the fragment |
| GatewayUrl.QueryOfAppendQueried | app/src/main/java/com/example/btprinter/MainActivity.kt:190-191 | text appended to a URL that already has a `?` lands at the end of that URL's query |
| GatewayUrl.QueryOfAppendPlain | app/src/main/java/com/example/btprinter/MainActivity.kt:190-191 | for a URL without `?`, the query of the URL plus appended text is the query of the appended text alone |
| GatewayUrl.WithChallengeInjective | app/src/main/java/com/example/btprinter/MainActivity.kt:190-191 | for one server URL, two codes give the same target exactly when they are equal |
| GatewayUrl.IndexOf | app/src/main/java/com/example/btprinter/MainActivity.kt:190 | the first-`?` search finds the earliest occurrence, or reports none exactly when there is none |
| GatewayUrl.PlainBaseExample | app/src/main/java/com/example/btprinter/MainActivity.kt:188-191 | `ws://h:1/` with code `42` dials `ws://h:1/?id=42` |
| Text.ContainsIsSearch | app/src/main/java/com/example/btprinter/MainActivity.kt:121-123 | `contains` holds exactly when trying each start in turn finds the text as a prefix there |
| Text.IsWhitespace | app/src/main/java/com/example/btprinter/MainActivity.kt:178-183 | no visible ASCII character counts as whitespace; space, tab, line feed and carriage return do |
| Text.BlankIsTrimmedEmpty | app/src/main/java/com/example/btprinter/MainActivity.kt:178-183 | `isBlank` holds exactly when dropping the leading whitespace leaves nothing |
| Text.ContainsChar | app/src/main/java/com/example/btprinter/MainActivity.kt:190 | `contains("?")` is membership of the character `?` |
| Controller.PressConnect | app/src/main/java/com/example/btprinter/MainActivity.kt:170-236 | connected: close the active socket (if any) with code 1000, forget it, status "Disconnected from server"; not connected: a blank URL or a blank code only toasts and changes nothing; otherwise a socket is opened for the challenge URL under a fresh handle, status "Menghubungkan...", or a throwing client sets "Error: ..."; never sets `isConnected`; input fields untouched |
| Controller.EditServerUrl | app/src/main/java/com/example/btprinter/MainActivity.kt:148-154 | the URL field ignores edits while connected, otherwise takes the new text and nothing else changes |
| Controller.EditChallengeCode | app/src/main/java/com/example/btprinter/MainActivity.kt:158-166 | the code field ignores edits while connected, otherwise takes the new text and nothing else changes |
| Controller.OnOpen | app/src/main/java/com/example/btprinter/MainActivity.kt:195-199 | connected, status "Terhubung! ID: " with the current code; handle and inputs kept |
| Controller.OnMessage | app/src/main/java/com/example/btprinter/MainActivity.kt:202-212 | writes "Pesan masuk: " first, recorded as a `StatusShown` effect; with no device nothing else happens: that write is the only effect and the status ends at the no-printer notice; with a device exactly one print of the raw frame on it, and the success status appears exactly when the print returned true, "Gagal Mencetak" exactly when it returned false |
| Controller.OnClosing | app/src/main/java/com/example/btprinter/MainActivity.kt:215-220 | disconnected, status "Server closing: " with the reason; handle kept |
| Controller.OnFailure | app/src/main/java/com/example/btprinter/MainActivity.kt:222-227 | disconnected, status "Connection Error: " with the message; handle kept |
| Controller.PressPrint | app/src/main/java/com/example/btprinter/MainActivity.kt:259-268 | no device: nothing happens; a device: "Mencetak (size)..." is shown, the typed text is printed on it, and the status ends at "Selesai" |
| Controller.SelectDevice | app/src/main/java/com/example/btprinter/MainActivity.kt:295-297 | the tapped device becomes selected and is one of the listed devices; the status names it ("null" for a missing name); nothing else in the state changes |
| Controller.Init | app/src/main/java/com/example/btprinter/MainActivity.kt:64-78 | the first state is valid, disconnected, with no handle, no device selected, status "Ready", paper 58mm and an empty challenge code |
| Controller.FirstPressAsksForCode | app/src/main/java/com/example/btprinter/MainActivity.kt:64-78 | in the first state the URL field is filled and the code field empty, so the button only raises the "Masukkan Challenge Code" toast |
| Controller.Next | app/src/main/java/com/example/btprinter/MainActivity.kt:148-297 | no event changes the device list; the print-text field takes any edit, connected or not; a tap on a listed card selects that device with no effect, a tap past the list changes nothing; only the button and the three listener callbacks move `isConnected` |
| Controller.Run | app/src/main/java/com/example/btprinter/MainActivity.kt:148-297 | a run never changes the device list; no events change nothing; one event is one `Next` step |
| Controller.RunAppend | app/src/main/java/com/example/btprinter/MainActivity.kt:148-297 | a run split at any point is the first part followed by the second from where the first ended, with the effects concatenated |
| Controller.NextValid | app/src/main/java/com/example/btprinter/MainActivity.kt:289-297 | every event keeps the selection inside the device list, the handle allocated, the paper size one of the two widths, and never changes the list |
| Controller.RunValid | app/src/main/java/com/example/btprinter/MainActivity.kt:289-297 | the same holds after any sequence of events |
| Controller.ConnectedOnlyByOpen | app/src/main/java/com/example/btprinter/MainActivity.kt:172-227 | `isConnected` turns on only through `onOpen` and off only through the button, `onClosing` or `onFailure`; `onOpen` always turns it on and the other two always off |
| Controller.OpensOnlyAfterValidation | app/src/main/java/com/example/btprinter/MainActivity.kt:177-232 | every socket opened comes from a press while disconnected with non-blank URL and code, dials the challenge URL and uses a fresh handle |
| Controller.PrintsOnlySelected | app/src/main/java/com/example/btprinter/MainActivity.kt:202-268 | printText is only called on the selected device, with the frame text or the typed text |
| Controller.NoPrintWithoutSelection | app/src/main/java/com/example/btprinter/MainActivity.kt:205-211 | from a state with no device, no run of events without a device tap ever calls printText |
| Controller.ReconnectWhileConnecting | app/src/main/java/com/example/btprinter/MainActivity.kt:172-235 | pressing the button before `onOpen` opens a second socket and replaces the pending handle without closing it, leaving that handle orphaned, so by `NeverClosedAgain` nothing closes it later |
| Controller.NeverClosedAgain | app/src/main/java/com/example/btprinter/MainActivity.kt:172-176 | a handle that was allocated and is no longer the active one is never closed by any later run of events, since the button closes only the active handle |
| Controller.FrameOutcomesDistinct | app/src/main/java/com/example/btprinter/MainActivity.kt:208-210 | the no-printer, success and failure statuses differ from each other |
| Printer.Payload | app/src/main/java/com/example/btprinter/MainActivity.kt:373-380 | the stream begins with the encoded text plus newline, then five line feeds, and ends with the cut `1D 56 00`, 8 bytes longer than the encoded text |
| Printer.WrittenMonotone | app/src/main/java/com/example/btprinter/MainActivity.kt:372-380 | the output stream is only ever appended to: what a prefix of the operations writes is a prefix of what all of them write |
| Printer.WrittenAll | app/src/main/java/com/example/btprinter/MainActivity.kt:372-380 | the three writes of a full run put exactly the payload on the stream |
| Printer.WrittenPrefix | app/src/main/java/com/example/btprinter/MainActivity.kt:373-382 | any prefix of the try block writes a prefix of the payload; the whole block writes all of it |
| Printer.Reached | app/src/main/java/com/example/btprinter/MainActivity.kt:367-385 | the calls reached are all six when none fails, otherwise they end at the first failing call: no call before the last one reached fails |
| Printer.PerformedBeforeConnect | app/src/main/java/com/example/btprinter/MainActivity.kt:369-371 | a run that stops at or before the connect wrote nothing |
| Printer.PerformedCreateOnly | app/src/main/java/com/example/btprinter/MainActivity.kt:368-371 | a run that stops at the create never connected |
| Printer.PerformedCreatesOnce | app/src/main/java/com/example/btprinter/MainActivity.kt:368-369 | the socket is created for the SPP UUID first, and only once |
| Printer.PerformedConnectsBeforeWriting | app/src/main/java/com/example/btprinter/MainActivity.kt:369-380 | no write precedes the connect |
| Printer.PerformedClosesLast | app/src/main/java/com/example/btprinter/MainActivity.kt:382-394 | close happens once, last, and only for a created socket; after a full run the flush comes right before it |
| Printer.RunTryBlock | app/src/main/java/com/example/btprinter/MainActivity.kt:367-385 | the try block runs create, connect, the three writes and the flush in order and stops at the first call that throws; it throws exactly when one of those calls fails, and otherwise reaches all six; the count reached is the one `Reached` fixes |
| Printer.PrintText | app/src/main/java/com/example/btprinter/MainActivity.kt:359-396 | permission denied on SDK 31 or later: false, and no socket is created, connected or closed; true exactly when no try-block call throws, whatever close does; on success the bytes written are text+newline, five line feeds, then `1D 56 00`, flushed before close; a failed run writes only a prefix of that; a created socket is closed exactly once as the last operation, and a socket whose creation threw is never closed, connected or written to; a failed connect writes nothing; the operations are exactly those of the calls up to the first that throws, then the close of a created socket |
| Dispatch.DeliverFrame | app/src/main/java/com/example/btprinter/MainActivity.kt:202-212 | no device: the socket is never touched and the frame is dropped, the incoming-text status being the only effect; with a device the success status appears exactly when the permission holds and no socket call throws, and then the full payload was written; a created socket is closed once; with a device the socket sees exactly what printText does with the frame: nothing when permission is denied, otherwise the calls up to the first that throws, then the close of a created socket |
| Dispatch.PrintTyped | app/src/main/java/com/example/btprinter/MainActivity.kt:259-268 | with a device the status ends at "Selesai" whether or not printing worked, and a working print wrote the typed text's payload; without one nothing happens; with a device the socket sees exactly what printText does with the typed text: nothing when permission is denied, otherwise the calls up to the first that throws, then the close of a created socket |
| StatusColor.Classify | app/src/main/java/com/example/btprinter/MainActivity.kt:121-126 | red exactly when the status contains "Error" or "Gagal"; green exactly when it holds no failure word and contains "Terhubung" or "Berhasil"; neutral otherwise |
| StatusColor.NoMarkerNeutral | app/src/main/java/com/example/btprinter/MainActivity.kt:121-126 | text with none of the marker words' first letters is neutral |
| StatusColor.FailureFreeNeverFails | app/src/main/java/com/example/btprinter/MainActivity.kt:122 | text with neither an `E` nor a `G` holds no failure word, so the card is never red for it |
| StatusColor.ToneOfLabelled | app/src/main/java/com/example/btprinter/MainActivity.kt:121-126 | a label free of marker letters leaves the tone of the text after it unchanged |
| StatusColor.FailuresAreRed | app/src/main/java/com/example/btprinter/MainActivity.kt:121-122 | connection errors, client errors and failed prints always show red, whatever the message |
| StatusColor.AutoPrintIsGreen | app/src/main/java/com/example/btprinter/MainActivity.kt:121-124 | a successful automatic print shows green for either paper width |
| StatusColor.ConnectedTone | app/src/main/java/com/example/btprinter/MainActivity.kt:121-124 | the connected banner is green, or red exactly when the challenge code holds "Error" or "Gagal" (failure words win) |
| StatusColor.SessionStatusesNeutral | app/src/main/java/com/example/btprinter/MainActivity.kt:121-126 | "Ready", "Menghubungkan..." and "Disconnected from server" are neutral |
| StatusColor.ManualPrintNeutral | app/src/main/java/com/example/btprinter/MainActivity.kt:121-126 | the manual print's "Mencetak (...)..." and "Selesai" are neutral |
| StatusColor.NoPrinterNeutral | app/src/main/java/com/example/btprinter/MainActivity.kt:121-126 | the no-printer notice is neutral |
| StatusColor.QuotedTone | app/src/main/java/com/example/btprinter/MainActivity.kt:121-126 | "Pesan masuk: ", "Server closing: " and "Printer dipilih: " statuses take the tone of the text they quote |

## Left out

- The Compose view tree, theme, toast rendering, the permission launcher and `LaunchedEffect` (lines 44-58, 97-120, 127-135): presentation only. Toasts appear only as `Toast` effects. The status card's colour choice at lines 121-126 is modelled, as `StatusColor.Classify`.
- Start-up (lines 65, 97-111): in the code the device list starts empty and is loaded when the permission request is granted, with the status "Izin diberikan. Memuat perangkat..." or, on refusal, "Izin Bluetooth diperlukan.". The model starts at `Init` with the list already loaded and the status "Ready"; the permission callback's status texts are not modelled.
- `getPairedDevices` (lines 342-357) and the refresh button (line 284): the bonded-device list is a fixed sequence given to `Init`. The code keeps `selectedDevice` across a refresh, even when the new list lacks it (with Bluetooth off the list is empty, lines 346-348), and frames and the Print button still print on it. So `Valid`'s clause "the selection is in the list" holds only for the modelled events.
- The paper-size radio buttons (lines 313-338): the size appears only in status texts. It is a state field held to "58mm" or "80mm", and no event changes it.
- OkHttp, RFCOMM, the SPP handshake and `Dispatchers.IO`: sockets are abstract handles and traces. Each coroutine body is one atomic transition, so races between concurrent dispatches are not modelled. A status that a transition writes and then overwrites is recorded as a `StatusShown` effect. It is drawn only when the coroutine suspends in between, as during a print; on the no-device path of `onMessage` (lines 204 and 210) nothing suspends, so "Pesan masuk: " is never drawn.
- `String.toByteArray()` (UTF-8): a parameter function `encode`. Kotlin strings can hold lone UTF-16 surrogates; Dafny characters cannot.
- `Request.Builder().url(...)` (line 193) sits outside the try block. Its `IllegalArgumentException` for a malformed URL would escape the click handler. That exception is not modelled.
- `socket.outputStream` (line 372) can also throw `IOException`. It is not a separate call in the model; its outcome is that of a failing first write, without the write.
- Exceptions other than `IOException` in printText, such as `SecurityException`: not caught by the code, not modelled.
- In the manual print, `selectedDevice!!` and `textToPrint` are re-read when the coroutine body runs (line 264), not when the button is pressed. A different card tapped, or the text edited, in between would change what is printed and where. The model runs the body atomically at the press, so that race is not modelled.
- Device equality is structural (address and name). Android compares `BluetoothDevice` by address.
- Which socket a callback comes from is carried by the event but ignored, as in the code. When OkHttp actually delivers callbacks after a local close is not modelled; any callback may arrive at any time.
- The event-subscription revision of the gateway client (an `identify_printer` handshake, `printer_connected` and `print_message` events) is not part of this model.

=== FILE: controller.dfy ===
/**
 * The connect/dispatch controller of `PrinterApp`: the remembered state the composable keeps,
 * and one transition per user action or WebSocket listener callback. Each transition returns
 * the new state and the effects it asks of the platform, in order.
 */
module Controller {
  import opened Options
  import opened Text
  import GatewayUrl

  /** A bonded Bluetooth device as listed by the adapter; `name` may be null. */
  datatype Device = Device(address: string, name: Option<string>)

  /** A WebSocket handle returned by `newWebSocket`, identified by allocation order. */
  datatype Socket = Socket(id: nat)

  /** The remembered variables of `PrinterApp` that the logic reads or writes. */
  datatype App = App(
    paired: seq<Device>,
    selected: Option<Device>,
    status: string,
    printerSize: string,
    serverUrl: string,
    challengeCode: string,
    textToPrint: string,
    isConnected: bool,
    active: Option<Socket>,
    nextSocket: nat)     // handles allocated so far; the next one is fresh

  /** What a transition asks of the platform. */
  datatype Effect =
    | Toast(message: string)
    | OpenSocket(socket: Socket, url: string)
    | CloseSocket(socket: Socket, code: int, reason: string)
    | Print(device: Device, text: string)   // a call of printText
    | StatusShown(message: string)          // a status written and then overwritten within the same transition

  datatype Step = Step(app: App, effects: seq<Effect>)

  /** How `client.newWebSocket` behaves: it returns a handle, or throws with a message (Kotlin renders a null message as "null"). */
  datatype Creation = Created | Threw(message: string)

  datatype Event =
    | ConnectButton(creation: Creation)
    | ServerUrlEdited(url: string)
    | ChallengeCodeEdited(code: string)
    | TextToPrintEdited(text: string)
    | Opened(socket: Socket)
    | MessageReceived(socket: Socket, text: string, printed: bool)   // `printed`: what printText returned
    | Closing(socket: Socket, closeCode: int, reason: string)
    | Failed(socket: Socket, message: string)
    | PrintButton
    | DeviceTapped(index: nat)

  // Status texts, exactly as the application shows them.
  const ReadyStatus := "Ready"
  const DisconnectedStatus := "Disconnected from server"
  const ConnectingStatus := "Menghubungkan..."
  const PrintFailedStatus := "Gagal Mencetak"
  const NoPrinterStatus := "Data diterima tapi belum ada printer dipilih!"
  const DoneStatus := "Selesai"
  const UrlMissingToast := "Masukkan URL Server"
  const CodeMissingToast := "Masukkan Challenge Code"
  const NormalClosure := 1000
  const UserDisconnectReason := "User disconnected"

  function ConnectedStatus(code: string): string { "Terhubung! ID: " + code }
  function IncomingStatus(text: string): string { "Pesan masuk: " + text }
  function AutoPrintedStatus(size: string): string { "Cetak Otomatis Berhasil (" + size + ")" }
  function ServerClosingStatus(reason: string): string { "Server closing: " + reason }
  function ConnectionErrorStatus(message: string): string { "Connection Error: " + message }
  function CreateErrorStatus(message: string): string { "Error: " + message }
  function PrintingStatus(size: string): string { "Mencetak (" + size + ")..." }
  function SelectedStatus(d: Device): string { "Printer dipilih: " + d.name.GetOr("null") }

  /**
   * The state on first composition, taken once the bonded devices are listed: disconnected,
   * nothing selected, status "Ready".
   */
  function Init(paired: seq<Device>): (a: App)
    ensures Valid(a) && a.paired == paired && a.selected.None?
    ensures !a.isConnected && a.active.None? && a.status == ReadyStatus
    ensures a.printerSize == "58mm" && a.challengeCode == ""
  {
    App(paired, None, ReadyStatus, "58mm", "ws://192.168.1.5:8080", "", "Hello Printer!", false, None, 0)
  }

  /** The two paper widths offered. */
  predicate PaperSize(size: string) {
    size == "58mm" || size == "80mm"
  }

  /**
   * What every state the modelled events reach satisfies. The device-list refresh is not an
   * event here; in the code it keeps the selection even when the new list lacks that device.
   */
  predicate Valid(app: App) {
    && (app.selected.Some? ==> app.selected.value in app.paired)
    && (app.active.Some? ==> app.active.value.id < app.nextSocket)
    && PaperSize(app.printerSize)
  }

  /** The fields only the user edits or selects: no connection event touches them. */
  predicate SameInputs(a: App, b: App) {
    && a.paired == b.paired && a.selected == b.selected && a.printerSize == b.printerSize
    && a.serverUrl == b.serverUrl && a.challengeCode == b.challengeCode && a.textToPrint == b.textToPrint
  }

  /** The connection fields: no print or selection event touches them. */
  predicate SameSession(a: App, b: App) {
    a.isConnected == b.isConnected && a.active == b.active && a.nextSocket == b.nextSocket
  }

  /** Some effect opens a socket. */
  predicate Opens(effects: seq<Effect>) {
    exists e | e in effects :: e.OpenSocket?
  }

  /** Some effect calls printText. */
  predicate Prints(effects: seq<Effect>) {
    exists e | e in effects :: e.Print?
  }

  /** The connect/disconnect button. */
  function PressConnect(app: App, creation: Creation): (s: Step)
    // the button never marks the session connected: only onOpen does
    ensures !s.app.isConnected
    ensures SameInputs(app, s.app)
    // disconnect: close the active socket, if any, with a normal closure, and forget it
    ensures app.isConnected ==>
      && s.app.active.None? && s.app.status == DisconnectedStatus && s.app.nextSocket == app.nextSocket
      && s.effects == (if app.active.Some? then [CloseSocket(app.active.value, NormalClosure, UserDisconnectReason)] else [])
    // validation: a blank URL or code only raises a toast
    ensures !app.isConnected && IsBlank(app.serverUrl) ==> s == Step(app, [Toast(UrlMissingToast)])
    ensures !app.isConnected && !IsBlank(app.serverUrl) && IsBlank(app.challengeCode) ==> s == Step(app, [Toast(CodeMissingToast)])
    // a socket is requested exactly when the inputs pass validation and the client hands one back
    ensures Opens(s.effects) <==> !app.isConnected && !IsBlank(app.serverUrl) && !IsBlank(app.challengeCode) && creation.Created?
    ensures Opens(s.effects) ==>
      && s.effects == [OpenSocket(Socket(app.nextSocket), GatewayUrl.WithChallenge(app.serverUrl, app.challengeCode))]
      && s.app.active == Some(Socket(app.nextSocket)) && s.app.nextSocket == app.nextSocket + 1
      && s.app.status == ConnectingStatus
    // a throwing client leaves the handle as it was and reports the message
    ensures !app.isConnected && !IsBlank(app.serverUrl) && !IsBlank(app.challengeCode) && creation.Threw? ==>
      s == Step(app.(status := CreateErrorStatus(creation.message)), [])
  {
    if app.isConnected then
      var closes := if app.active.Some? then [CloseSocket(app.active.value, NormalClosure, UserDisconnectReason)] else [];
      Step(app.(active := None, isConnected := false, status := DisconnectedStatus), closes)
    else if IsBlank(app.serverUrl) then
      Step(app, [Toast(UrlMissingToast)])
    else if IsBlank(app.challengeCode) then
      Step(app, [Toast(CodeMissingToast)])
    else
      var url := GatewayUrl.WithChallenge(app.serverUrl, app.challengeCode);
      match creation
      case Created =>
        var socket := Socket(app.nextSocket);
        assert OpenSocket(socket, url) in [OpenSocket(socket, url)];
        Step(app.(active := Some(socket), nextSocket := app.nextSocket + 1, status := ConnectingStatus), [OpenSocket(socket, url)])
      case Threw(message) =>
        Step(app.(status := CreateErrorStatus(message)), [])
  }

  /** The server URL and challenge code fields are disabled while connected. */
  function EditServerUrl(app: App, url: string): (a: App)
    ensures app.isConnected ==> a == app
    ensures !app.isConnected ==> a.serverUrl == url && a == app.(serverUrl := a.serverUrl)
  {
    if app.isConnected then app else app.(serverUrl := url)
  }

  function EditChallengeCode(app: App, code: string): (a: App)
    ensures app.isConnected ==> a == app
    ensures !app.isConnected ==> a.challengeCode == code && a == app.(challengeCode := a.challengeCode)
  {
    if app.isConnected then app else app.(challengeCode := code)
  }

  /** `onOpen`: the only way into the connected state. The code shown is the field's current value. */
  function OnOpen(app: App): (a: App)
    ensures a.isConnected && a.status == ConnectedStatus(app.challengeCode)
    ensures SameInputs(app, a) && a.active == app.active && a.nextSocket == app.nextSocket
  {
    app.(isConnected := true, status := ConnectedStatus(app.challengeCode))
  }

  /** `onClosing`: the peer is closing; the handle is kept. */
  function OnClosing(app: App, reason: string): (a: App)
    ensures !a.isConnected && a.status == ServerClosingStatus(reason)
    ensures SameInputs(app, a) && a.active == app.active && a.nextSocket == app.nextSocket
  {
    app.(isConnected := false, status := ServerClosingStatus(reason))
  }

  /** `onFailure`: the transport failed; the handle is kept. */
  function OnFailure(app: App, message: string): (a: App)
    ensures !a.isConnected && a.status == ConnectionErrorStatus(message)
    ensures SameInputs(app, a) && a.active == app.active && a.nextSocket == app.nextSocket
  {
    app.(isConnected := false, status := ConnectionErrorStatus(message))
  }

  /**
   * `onMessage`: the raw frame is printed on the selected device, if there is one.
   * `printed` is what that printText call returned; it is ignored when nothing is selected.
   */
  function OnMessage(app: App, text: string, printed: bool): (s: Step)
    ensures SameInputs(app, s.app) && SameSession(app, s.app)
    ensures |s.effects| > 0 && s.effects[0] == StatusShown(IncomingStatus(text))
    // no-device guard
    ensures app.selected.None? ==> !Prints(s.effects) && s.app.status == NoPrinterStatus
    ensures app.selected.None? ==> s.effects == [StatusShown(IncomingStatus(text))]
    // with a device: one print of the raw text on it, and success is reported exactly when it printed
    ensures app.selected.Some? ==> s.effects[1..] == [Print(app.selected.value, text)]
    ensures app.selected.Some? ==>
      && (s.app.status == AutoPrintedStatus(app.printerSize) <==> printed)
      && (s.app.status == PrintFailedStatus <==> !printed)
  {
    var shown := [StatusShown(IncomingStatus(text))];
    match app.selected
    case Some(device) =>
      var status := if printed then AutoPrintedStatus(app.printerSize) else PrintFailedStatus;
      Step(app.(status := status), shown + [Print(device, text)])
    case None =>
      Step(app.(status := NoPrinterStatus), shown)
  }

  /** The manual Print button: prints the typed text; the result is ignored and the status ends at "Selesai". */
  function PressPrint(app: App): (s: Step)
    ensures SameInputs(app, s.app) && SameSession(app, s.app)
    ensures app.selected.None? ==> s == Step(app, [])
    ensures app.selected.Some? ==>
      && s.effects == [StatusShown(PrintingStatus(app.printerSize)), Print(app.selected.value, app.textToPrint)]
      && s.app.status == DoneStatus
  {
    match app.selected
    case Some(device) =>
      Step(app.(status := DoneStatus), [StatusShown(PrintingStatus(app.printerSize)), Print(device, app.textToPrint)])
    case None =>
      Step(app, [])
  }

  /** Tapping a listed device selects it; the list itself is untouched. */
  function SelectDevice(app: App, index: nat): (a: App)
    requires index < |app.paired|
    ensures a.selected == Some(app.paired[index]) && a.selected.value in app.paired
    ensures a.status == SelectedStatus(app.paired[index])
    ensures a.paired == app.paired && SameSession(app, a)
    ensures a.serverUrl == app.serverUrl && a.challengeCode == app.challengeCode && a.textToPrint == app.textToPrint
    // nothing but the selection and the status changes
    ensures a == app.(selected := a.selected, status := a.status)
  {
    app.(selected := Some(app.paired[index]), status := SelectedStatus(app.paired[index]))
  }

  /**
   * One event. Listener callbacks do not look at which socket raised them, so a callback from
   * any socket acts on the state. A tap can only land on a listed card: an index past the list
   * changes nothing.
   */
  function Next(app: App, ev: Event): (s: Step)
    ensures s.app.paired == app.paired
    // the print text field is never disabled, connected or not
    ensures ev.TextToPrintEdited? ==> s == Step(app.(textToPrint := ev.text), [])
    ensures ev.DeviceTapped? && ev.index < |app.paired| ==>
      s.app.selected == Some(app.paired[ev.index]) && s.effects == [] && SameSession(app, s.app)
    ensures ev.DeviceTapped? && ev.index >= |app.paired| ==> s == Step(app, [])
    // only the three listener callbacks and the button touch the connection flag
    ensures !(ev.ConnectButton? || ev.Opened? || ev.Closing? || ev.Failed?) ==> s.app.isConnected == app.isConnected
  {
    match ev
    case ConnectButton(creation) => PressConnect(app, creation)
    case ServerUrlEdited(url) => Step(EditServerUrl(app, url), [])
    case ChallengeCodeEdited(code) => Step(EditChallengeCode(app, code), [])
    case TextToPrintEdited(text) => Step(app.(textToPrint := text), [])
    case Opened(_) => Step(OnOpen(app), [])
    case MessageReceived(_, text, printed) => OnMessage(app, text, printed)
    case Closing(_, _, reason) => Step(OnClosing(app, reason), [])
    case Failed(_, message) => Step(OnFailure(app, message), [])
    case PrintButton => PressPrint(app)
    case DeviceTapped(index) => if index < |app.paired| then Step(SelectDevice(app, index), []) else Step(app, [])
  }

  /** A run of events from `app`: the final state and every effect, in order. */
  function Run(app: App, events: seq<Event>): (s: Step)
    ensures s.app.paired == app.paired
    ensures events == [] ==> s == Step(app, [])
    ensures |events| == 1 ==> s == Next(app, events[0])
    decreases |events|
  {
    if events == [] then Step(app, [])
    else
      var first := Next(app, events[0]);
      var rest := Run(first.app, events[1..]);
      Step(rest.app, first.effects + rest.effects)
  }

  /** A run splits anywhere: the second part starts from where the first ended, and its effects follow on. */
  lemma {:induction false} RunAppend(app: App, xs: seq<Event>, ys: seq<Event>)
    ensures var mid := Run(app, xs); var rest := Run(mid.app, ys);
      Run(app, xs + ys) == Step(rest.app, mid.effects + rest.effects)
    decreases |xs|
  {
    if xs == [] {
      assert xs + ys == ys;
    } else {
      var first := Next(app, xs[0]);
      assert (xs + ys)[0] == xs[0];
      assert (xs + ys)[1..] == xs[1..] + ys;
      RunAppend(first.app, xs[1..], ys);
      var mid := Run(first.app, xs[1..]);
      var rest := Run(mid.app, ys);
      assert first.effects + (mid.effects + rest.effects) == (first.effects + mid.effects) + rest.effects;
    }
  }

  /** The no-printer status, read as the two phrases it is made of. */
  lemma NoPrinterPhrases()
    ensures NoPrinterStatus == "Data diterima tapi belum " + "ada printer dipilih!"
  {
  }

  /** The three endings of `onMessage` are told apart by the status text alone. */
  lemma FrameOutcomesDistinct(size: string)
    ensures NoPrinterStatus != AutoPrintedStatus(size)
    ensures NoPrinterStatus != PrintFailedStatus
    ensures PrintFailedStatus != AutoPrintedStatus(size)
  {
    NoPrinterPhrases();
    assert NoPrinterStatus[0] == 'D';
    assert AutoPrintedStatus(size)[0] == 'C';
  }

  /** Pressing the button in the initial state only asks for a challenge code: the URL field starts filled, the code field empty. */
  lemma FirstPressAsksForCode(paired: seq<Device>, creation: Creation)
    ensures PressConnect(Init(paired), creation) == Step(Init(paired), [Toast(CodeMissingToast)])
  {
    var app := Init(paired);
    assert !IsWhitespace(app.serverUrl[0]);
  }

  /** Every event keeps the state valid and the device list unchanged. */
  lemma NextValid(app: App, ev: Event)
    requires Valid(app)
    ensures Valid(Next(app, ev).app) && Next(app, ev).app.paired == app.paired
  {
  }

  /** Validity and the device list survive any run of events. */
  lemma {:induction false} RunValid(app: App, events: seq<Event>)
    requires Valid(app)
    ensures Valid(Run(app, events).app) && Run(app, events).app.paired == app.paired
    decreases |events|
  {
    if events != [] {
      NextValid(app, events[0]);
      RunValid(Next(app, events[0]).app, events[1..]);
    }
  }

  /**
   * No-device guard over a whole run: until a device is tapped, no frame and no button press
   * ever reaches printText.
   */
  lemma {:induction false} NoPrintWithoutSelection(app: App, events: seq<Event>)
    requires app.selected.None?
    requires forall k | 0 <= k < |events| :: !events[k].DeviceTapped?
    ensures !Prints(Run(app, events).effects)
    ensures Run(app, events).app.selected.None?
    decreases |events|
  {
    if events != [] {
      var first := Next(app, events[0]);
      NoPrintWithoutSelection(first.app, events[1..]);
      var rest := Run(first.app, events[1..]);
      assert Run(app, events).effects == first.effects + rest.effects;
    }
  }

  /** `isConnected` turns on only through `onOpen`, and turns off only through the button, `onClosing` or `onFailure`. */
  lemma ConnectedOnlyByOpen(app: App, ev: Event)
    ensures !app.isConnected && Next(app, ev).app.isConnected ==> ev.Opened?
    ensures app.isConnected && !Next(app, ev).app.isConnected ==> ev.ConnectButton? || ev.Closing? || ev.Failed?
    ensures ev.Opened? ==> Next(app, ev).app.isConnected
    ensures ev.Closing? || ev.Failed? ==> !Next(app, ev).app.isConnected
  {
  }

  /** A socket is only requested by the button, with validated inputs, for the challenge URL, under a fresh handle. */
  lemma OpensOnlyAfterValidation(app: App, ev: Event)
    ensures forall e | e in Next(app, ev).effects && e.OpenSocket? ::
      && ev.ConnectButton? && !app.isConnected
      && !IsBlank(app.serverUrl) && !IsBlank(app.challengeCode)
      && e.url == GatewayUrl.WithChallenge(app.serverUrl, app.challengeCode)
      && e.socket.id == app.nextSocket
  {
  }

  /** printText is only called on the selected device, with the frame text or the typed text. */
  lemma PrintsOnlySelected(app: App, ev: Event)
    ensures forall e | e in Next(app, ev).effects && e.Print? ::
      && app.selected == Some(e.device)
      && ((ev.MessageReceived? && e.text == ev.text) || (ev.PrintButton? && e.text == app.textToPrint))
  {
  }

  /**
   * While a connection is still being set up (`onOpen` has not fired), the button dials again:
   * the earlier handle is replaced without being closed, and it is left older than every
   * handle the state can still close (see `NeverClosedAgain`).
   */
  lemma ReconnectWhileConnecting(app: App, pending: Socket)
    requires Valid(app)
    requires !app.isConnected && app.active == Some(pending)
    requires !IsBlank(app.serverUrl) && !IsBlank(app.challengeCode)
    ensures var s := PressConnect(app, Created);
      s.app.active.Some? && s.app.active != Some(pending) && Opens(s.effects)
    ensures var s := PressConnect(app, Created);
      forall e | e in s.effects :: !e.CloseSocket?
    ensures var s := PressConnect(app, Created);
      Orphaned(s.app, pending)
  {
  }

  /** `socket` was allocated, and the state no longer holds it as the active handle. */
  predicate Orphaned(app: App, socket: Socket) {
    socket.id < app.nextSocket && app.active != Some(socket)
  }

  /** A handle that is no longer active is never closed again, whatever events follow. */
  lemma {:induction false} NeverClosedAgain(app: App, socket: Socket, events: seq<Event>)
    requires Orphaned(app, socket)
    ensures forall e | e in Run(app, events).effects && e.CloseSocket? :: e.socket != socket
    decreases |events|
  {
    if events != [] {
      var first := Next(app, events[0]);
      assert Orphaned(first.app, socket);
      NeverClosedAgain(first.app, socket, events[1..]);
      assert Run(app, events).effects == first.effects + Run(first.app, events[1..]).effects;
    }
  }
}

=== FILE: dispatch.dfy ===
/**
 * The two places where the controller hands text to `printText`: an incoming frame and the
 * manual Print button. Each runs the printer model on the selected device's platform and
 * feeds its result back into the controller's status.
 */
module Dispatch {
  import opened Controller
  import opened Printer

  /** `onMessage` with its printText call: the frame is printed on the selected device, if any. */
  method DeliverFrame(app: App, text: string, env: Env, encode: string -> seq<byte>) returns (s: Step, trace: seq<Op>)
    ensures SameInputs(app, s.app) && SameSession(app, s.app)
    // no selected device: the socket is never touched and the frame is dropped with a notice
    ensures app.selected.None? ==> trace == [] && s.app.status == NoPrinterStatus && !Prints(s.effects)
    ensures app.selected.None? ==> s.effects == [StatusShown(IncomingStatus(text))]
    // a device: the success status appears exactly when every socket call went through
    ensures app.selected.Some? ==>
      (s.app.status == AutoPrintedStatus(app.printerSize) <==> !PermissionDenied(env) && TryBlockSucceeds(env))
    ensures app.selected.Some? ==> Print(app.selected.value, text) in s.effects
    ensures s.app.status == AutoPrintedStatus(app.printerSize) ==> Written(trace) == Payload(encode, text)
    // whatever happened, a socket that was created has been closed once
    ensures multiset(trace)[Close] == (if app.selected.Some? && SocketCreated(env) then 1 else 0)
    // with a device the socket sees exactly what printText does with the frame
    ensures app.selected.Some? && PermissionDenied(env) ==> trace == []
    ensures app.selected.Some? && !PermissionDenied(env) ==>
      trace == Performed(Reached(env.failing), SocketCreated(env), encode, text)
  {
    match app.selected
    case None =>
      s := OnMessage(app, text, false);
      trace := [];
      FrameOutcomesDistinct(app.printerSize);
    case Some(device) =>
      var ok;
      ok, trace := PrintText(env, encode, text);
      s := OnMessage(app, text, ok);
      assert s.effects[1..][0] == s.effects[1];
  }

  /** The Print button with its printText call: the typed text is printed, and the result is not looked at. */
  method PrintTyped(app: App, env: Env, encode: string -> seq<byte>) returns (s: Step, trace: seq<Op>)
    ensures SameInputs(app, s.app) && SameSession(app, s.app)
    ensures app.selected.None? ==> trace == [] && s == Step(app, [])
    // with a device the status ends at "Selesai" on success and on failure alike
    ensures app.selected.Some? ==> s.app.status == DoneStatus
    ensures app.selected.Some? && !PermissionDenied(env) && TryBlockSucceeds(env) ==>
      Written(trace) == Payload(encode, app.textToPrint)
    ensures multiset(trace)[Close] == (if app.selected.Some? && SocketCreated(env) then 1 else 0)
    // with a device the socket sees exactly what printText does with the typed text
    ensures app.selected.Some? && PermissionDenied(env) ==> trace == []
    ensures app.selected.Some? && !PermissionDenied(env) ==>
      trace == Performed(Reached(env.failing), SocketCreated(env), encode, app.textToPrint)
  {
    s := PressPrint(app);
    trace := [];
    if app.selected.Some? {
      var ok;
      ok, trace := PrintText(env, encode, app.textToPrint);
    }
  }
}

=== FILE: gateway_url.dfy ===
/**
 * The WebSocket target the connect button dials: the server URL with the challenge code
 * appended as an `id` query parameter.
 */
module GatewayUrl {
  import opened Options
  import opened Text

  /** `?` when the server URL has no query yet, `&` when it already has one. */
  function Separator(serverUrl: string): string {
    if Contains(serverUrl, "?") then "&" else "?"
  }

  /** The URL handed to the WebSocket request: `serverUrl`, the separator, then `id=` and the code, unescaped. */
  function WithChallenge(serverUrl: string, code: string): (url: string)
    ensures |url| == |serverUrl| + 1 + |"id="| + |code|
    ensures url[..|serverUrl|] == serverUrl
    ensures url[|serverUrl| + 1..] == "id=" + code
    ensures url[|serverUrl|] == '&' <==> '?' in serverUrl
    ensures url[|serverUrl|] == '?' <==> '?' !in serverUrl
    ensures '?' in url
  {
    ContainsChar(serverUrl, '?');
    var url := serverUrl + Separator(serverUrl) + "id=" + code;
    assert url[|serverUrl|] in "?&";
    url
  }

  /** Index of the first `c` in `s`, if any. */
  function IndexOf(s: string, c: char): (r: Option<nat>)
    ensures r.None? <==> c !in s
    ensures r.Some? ==> r.value < |s| && s[r.value] == c && c !in s[..r.value]
  {
    if |s| == 0 then None
    else if s[0] == c then Some(0)
    else
      match IndexOf(s[1..], c)
      case None => None
      case Some(k) =>
        assert s[..k + 1] == [s[0]] + s[1..][..k];
        Some(k + 1)
  }

  /** The query component of a URL: everything after its first `?`, absent when there is no `?`. */
  function QueryOf(url: string): Option<string> {
    match IndexOf(url, '?')
    case None => None
    case Some(k) => Some(url[k + 1..])
  }

  /** Searching a concatenation finds the first string's occurrence, or else one in the second string shifted past the first. */
  lemma {:induction false} IndexOfAppend(s: string, t: string, c: char)
    ensures IndexOf(s + t, c) ==
      match IndexOf(s, c)
      case Some(k) => Some(k)
      case None =>
        match IndexOf(t, c)
        case None => None
        case Some(k) => Some(|s| + k)
  {
    if |s| == 0 {
      assert s + t == t;
    } else if s[0] == c {
      assert (s + t)[0] == c;
    } else {
      assert (s + t)[0] == s[0];
      assert (s + t)[1..] == s[1..] + t;
      IndexOfAppend(s[1..], t, c);
    }
  }

  /** The dialled URL is the server URL followed by the separator and the parameter. */
  lemma ChallengeSuffix(serverUrl: string, code: string)
    ensures WithChallenge(serverUrl, code) == serverUrl + ((if '?' in serverUrl then "&id=" else "?id=") + code)
  {
    ContainsChar(serverUrl, '?');
    assert "&" + "id=" == "&id=" && "?" + "id=" == "?id=";
  }

  /** Text appended to a URL that already has a query extends that query. */
  lemma QueryOfAppendQueried(s: string, t: string)
    requires '?' in s
    ensures QueryOf(s + t) == Some(QueryOf(s).value + t)
  {
    IndexOfAppend(s, t, '?');
    var k := IndexOf(s, '?').value;
    assert (s + t)[k + 1..] == s[k + 1..] + t;
  }

  /** Text appended to a URL without a query carries the query of the result. */
  lemma QueryOfAppendPlain(s: string, t: string)
    requires '?' !in s
    ensures QueryOf(s + t) == QueryOf(t)
  {
    assert IndexOf(s, '?') == None;
    IndexOfAppend(s, t, '?');
    match IndexOf(t, '?')
    case None =>
      assert IndexOf(s + t, '?') == None;
    case Some(k) =>
      assert IndexOf(s + t, '?') == Some(|s| + k);
      assert (s + t)[|s| + k + 1..] == t[k + 1..];
  }

  /**
   * The query of the dialled URL (its text after the first `?`) is the server URL's own query,
   * if it had one, followed by `&id=<code>`; otherwise it is exactly `id=<code>`. For a server
   * URL without a `#` fragment the challenge is therefore the last query parameter and never
   * lands in the path; a fragment is not looked at, so `ws://h/#f` dials `ws://h/#f?id=42`.
   */
  lemma QueryOfWithChallenge(serverUrl: string, code: string)
    ensures QueryOf(WithChallenge(serverUrl, code)) ==
      match QueryOf(serverUrl)
      case None => Some("id=" + code)
      case Some(q) => Some(q + "&id=" + code)
  {
    ChallengeSuffix(serverUrl, code);
    if '?' in serverUrl {
      QueryOfAppendQueried(serverUrl, "&id=" + code);
      assert QueryOf(serverUrl).value + ("&id=" + code) == QueryOf(serverUrl).value + "&id=" + code;
    } else {
      QueryOfAppendPlain(serverUrl, "?id=" + code);
      assert ("?id=" + code)[0] == '?';
      assert ("?id=" + code)[1..] == "id=" + code;
    }
  }

  /** Different challenge codes always give different target URLs for the same server. */
  lemma WithChallengeInjective(serverUrl: string, code1: string, code2: string)
    ensures WithChallenge(serverUrl, code1) == WithChallenge(serverUrl, code2) <==> code1 == code2
  {
    if WithChallenge(serverUrl, code1) == WithChallenge(serverUrl, code2) {
      assert "id=" + code1 == "id=" + code2;
      assert code1 == ("id=" + code1)[3..];
    }
  }

  /** The documented format: a base without a query gets `?id=`. */
  lemma PlainBaseExample()
    ensures WithChallenge("ws://h:1/", "42") == "ws://h:1/?id=42"
  {
    assert '?' !in "ws://h:1/";
  }
}

=== FILE: options.dfy ===
/** A value that may be absent: Kotlin's nullable references (`WebSocket?`, `BluetoothDevice?`, `String?`). */
module Options {

  datatype Option<+T> = None | Some(value: T) {

    /** The value, or `default` when absent. */
    function GetOr(default: T): T {
      match this
      case Some(v) => v
      case None => default
    }
  }
}

=== FILE: printer.dfy ===
/**
 * `printText`: send a text to a paired ESC/POS thermal printer over an RFCOMM socket, then
 * feed and cut the paper. The Bluetooth socket is abstract: the model records the calls made
 * on it, and the environment decides which of those calls throw `IOException`.
 */
module Printer {

  newtype byte = b: int | 0 <= b < 0x100

  /** The Serial Port Profile service record the socket is created for. */
  const SppUuid: string := "00001101-0000-1000-8000-00805F9B34FB"

  /** `Build.VERSION_CODES.S` (Android 12), from which BLUETOOTH_CONNECT must be granted at run time. */
  const VersionS: int := 31

  /** Five line feeds: the gap between the text and the cut. */
  const PaperFeed: seq<byte> := [0x0A, 0x0A, 0x0A, 0x0A, 0x0A]

  /** ESC/POS `GS V 0`: full paper cut. */
  const FullCut: seq<byte> := [0x1D, 0x56, 0x00]

  /** The socket calls `printText` makes, named by their place in the code. */
  datatype Call = CreateSocket | ConnectSocket | WriteText | WriteFeed | WriteCut | FlushStream

  /** The body of the `try` block, in program order; the `finally` block adds the close. */
  const TryBlock: seq<Call> := [CreateSocket, ConnectSocket, WriteText, WriteFeed, WriteCut, FlushStream]

  /** One operation performed on the socket, as the printer would see it. */
  datatype Op = Create(uuid: string) | Connect | Write(bytes: seq<byte>) | Flush | Close

  /**
   * What the platform decides: the SDK level, whether BLUETOOTH_CONNECT is granted, and which
   * socket calls would throw `IOException` if reached. A failing close is not listed: its
   * exception is caught inside the `finally` block and changes nothing the caller sees.
   */
  datatype Env = Env(sdkInt: int, connectGranted: bool, failing: set<Call>)

  /** The permission fast-fail of `printText`. */
  predicate PermissionDenied(env: Env) {
    !env.connectGranted && env.sdkInt >= VersionS
  }

  /** `createRfcommSocketToServiceRecord` is reached and returns a socket, so `socket` is non-null in `finally`. */
  predicate SocketCreated(env: Env) {
    !PermissionDenied(env) && CreateSocket !in env.failing
  }

  /** No call of the `try` block throws. */
  predicate TryBlockSucceeds(env: Env) {
    forall c | c in TryBlock :: c !in env.failing
  }

  /**
   * How many calls of the `try` block run: all of them, or up to and including the first that
   * throws, after which control leaves for the `catch` block.
   */
  function Reached(failing: set<Call>): (n: nat)
    ensures 0 < n <= |TryBlock|
    ensures forall j | 0 <= j < n - 1 :: TryBlock[j] !in failing
    ensures n < |TryBlock| ==> TryBlock[n - 1] in failing
    ensures n == |TryBlock| ==> (forall c | c in TryBlock :: c !in failing) || FlushStream in failing
  {
    if CreateSocket in failing then 1
    else if ConnectSocket in failing then 2
    else if WriteText in failing then 3
    else if WriteFeed in failing then 4
    else if WriteCut in failing then 5
    else 6
  }

  /** The calls reached are fixed by where the first failure is: no other count fits. */
  lemma ReachedUnique(failing: set<Call>, m: nat)
    requires 0 < m <= |TryBlock|
    requires forall j | 0 <= j < m - 1 :: TryBlock[j] !in failing
    requires m < |TryBlock| ==> TryBlock[m - 1] in failing
    ensures m == Reached(failing)
  {
  }

  /** The full byte stream for `text`: the encoded text and a newline, the feed, then the cut. */
  function Payload(encode: string -> seq<byte>, text: string): (p: seq<byte>)
    ensures |p| == |encode(text + "\n")| + 8
    ensures p[..|encode(text + "\n")|] == encode(text + "\n")
    ensures p[|encode(text + "\n")|..|p| - |FullCut|] == PaperFeed
    ensures p[|p| - |FullCut|..] == FullCut
  {
    encode(text + "\n") + PaperFeed + FullCut
  }

  /** The socket operation a call performs. */
  function OpOf(call: Call, encode: string -> seq<byte>, text: string): Op {
    match call
    case CreateSocket => Create(SppUuid)
    case ConnectSocket => Connect
    case WriteText => Write(encode(text + "\n"))
    case WriteFeed => Write(PaperFeed)
    case WriteCut => Write(FullCut)
    case FlushStream => Flush
  }

  /** The operations performed by a run of calls. */
  function OpsOf(calls: seq<Call>, encode: string -> seq<byte>, text: string): (ops: seq<Op>)
    ensures |ops| == |calls|
    ensures forall k | 0 <= k < |calls| :: ops[k] == OpOf(calls[k], encode, text)
  {
    if calls == [] then [] else OpsOf(calls[..|calls| - 1], encode, text) + [OpOf(calls[|calls| - 1], encode, text)]
  }

  /** The bytes one operation hands to the output stream. */
  function WrittenBy(op: Op): seq<byte> {
    if op.Write? then op.bytes else []
  }

  /** The bytes a trace hands to the output stream, in order. */
  function Written(trace: seq<Op>): seq<byte> {
    if trace == [] then [] else Written(trace[..|trace| - 1]) + WrittenBy(trace[|trace| - 1])
  }

  /** Appending an operation appends its bytes. */
  lemma WrittenSnoc(trace: seq<Op>, op: Op)
    ensures Written(trace + [op]) == Written(trace) + WrittenBy(op)
  {
    assert (trace + [op])[..|trace|] == trace;
  }

  /** Each call of the `try` block adds the bytes of its own operation. */
  lemma WrittenStep(n: nat, encode: string -> seq<byte>, text: string)
    requires 0 < n <= |TryBlock|
    ensures Written(OpsOf(TryBlock[..n], encode, text))
      == Written(OpsOf(TryBlock[..n - 1], encode, text)) + WrittenBy(OpOf(TryBlock[n - 1], encode, text))
  {
    var op := OpOf(TryBlock[n - 1], encode, text);
    assert TryBlock[..n][..n - 1] == TryBlock[..n - 1];
    assert OpsOf(TryBlock[..n], encode, text) == OpsOf(TryBlock[..n - 1], encode, text) + [op];
    WrittenSnoc(OpsOf(TryBlock[..n - 1], encode, text), op);
  }

  /** The bytes each call of the `try` block writes. */
  lemma CallWrites(k: nat, encode: string -> seq<byte>, text: string)
    requires k < |TryBlock|
    ensures WrittenBy(OpOf(TryBlock[k], encode, text))
      == if k == 2 then encode(text + "\n") else if k == 3 then PaperFeed else if k == 4 then FullCut else []
  {
  }

  /** The bytes written once the first `n` calls of the `try` block have run, call by call. */
  lemma WrittenSteps(encode: string -> seq<byte>, text: string)
    ensures var t := encode(text + "\n");
      && Written(OpsOf(TryBlock[..2], encode, text)) == []
      && Written(OpsOf(TryBlock[..3], encode, text)) == t
      && Written(OpsOf(TryBlock[..4], encode, text)) == t + PaperFeed
      && Written(OpsOf(TryBlock[..6], encode, text)) == t + PaperFeed + FullCut
  {
    assert TryBlock[..0] == [];
    WrittenStep(1, encode, text);
    CallWrites(0, encode, text);
    WrittenStep(2, encode, text);
    CallWrites(1, encode, text);
    WrittenStep(3, encode, text);
    CallWrites(2, encode, text);
    WrittenStep(4, encode, text);
    CallWrites(3, encode, text);
    WrittenStep(5, encode, text);
    CallWrites(4, encode, text);
    WrittenStep(6, encode, text);
    CallWrites(5, encode, text);
  }

  /** The bytes the whole `try` block writes are the payload. */
  lemma WrittenAll(encode: string -> seq<byte>, text: string)
    ensures Written(OpsOf(TryBlock, encode, text)) == Payload(encode, text)
  {
    WrittenSteps(encode, text);
    assert TryBlock[..6] == TryBlock;
  }

  /** Bytes are only ever appended: what a prefix of a trace writes is a prefix of what the trace writes. */
  lemma {:induction false} WrittenMonotone(trace: seq<Op>, n: nat)
    requires n <= |trace|
    ensures Written(trace[..n]) <= Written(trace)
  {
    if n < |trace| {
      var init := trace[..|trace| - 1];
      WrittenMonotone(init, n);
      assert init[..n] == trace[..n];
    } else {
      assert trace[..n] == trace;
    }
  }

  /** The bytes written by the first `n` calls of the `try` block are a prefix of the payload. */
  lemma WrittenPrefix(n: nat, encode: string -> seq<byte>, text: string)
    requires n <= |TryBlock|
    ensures Written(OpsOf(TryBlock[..n], encode, text)) <= Payload(encode, text)
    ensures n == |TryBlock| ==> Written(OpsOf(TryBlock, encode, text)) == Payload(encode, text)
  {
    var ops := OpsOf(TryBlock, encode, text);
    WrittenAll(encode, text);
    WrittenMonotone(ops, n);
    assert OpsOf(TryBlock[..n], encode, text) == ops[..n];
  }

  /** A close adds no bytes. */
  lemma WrittenClose(trace: seq<Op>)
    ensures Written(trace + [Close]) == Written(trace)
  {
    WrittenSnoc(trace, Close);
  }

  /** What `printText` performs when it reaches the first `n` calls of the try block and then closes the socket if `closed`. */
  function Performed(n: nat, closed: bool, encode: string -> seq<byte>, text: string): seq<Op>
    requires n <= |TryBlock|
  {
    OpsOf(TryBlock[..n], encode, text) + (if closed then [Close] else [])
  }

  /** The first `n` operations of a run that reaches every call of the try block. */
  lemma PerformedOps(n: nat, encode: string -> seq<byte>, text: string)
    requires n <= |TryBlock|
    ensures OpsOf(TryBlock[..n], encode, text)
      == [Create(SppUuid), Connect, Write(encode(text + "\n")), Write(PaperFeed), Write(FullCut), Flush][..n]
  {
    assert TryBlock[..|TryBlock|] == TryBlock;
  }

  /** Only the payload, or a prefix of it, reaches the printer; all of it when the whole try block ran. */
  lemma PerformedWritten(n: nat, closed: bool, encode: string -> seq<byte>, text: string)
    requires n <= |TryBlock|
    ensures Written(Performed(n, closed, encode, text)) <= Payload(encode, text)
    ensures n == |TryBlock| ==> Written(Performed(n, closed, encode, text)) == Payload(encode, text)
  {
    WrittenPrefix(n, encode, text);
    assert n == |TryBlock| ==> TryBlock[..n] == TryBlock;
    var ops := OpsOf(TryBlock[..n], encode, text);
    if closed {
      WrittenClose(ops);
    } else {
      assert Performed(n, closed, encode, text) == ops;
    }
  }

  /** The socket is created first, and only once. */
  lemma PerformedCreatesOnce(n: nat, closed: bool, encode: string -> seq<byte>, text: string)
    requires n <= |TryBlock|
    requires closed ==> 0 < n
    ensures var trace := Performed(n, closed, encode, text);
      trace != [] ==> trace[0] == Create(SppUuid) && multiset(trace)[Create(SppUuid)] == 1
  {
    PerformedOps(n, encode, text);
    var ops := OpsOf(TryBlock[..n], encode, text);
    if n > 0 {
      assert ops == [Create(SppUuid)] + ops[1..];
      assert Create(SppUuid) !in ops[1..];
    }
  }

  /** Every write comes after the connect. */
  lemma PerformedConnectsBeforeWriting(n: nat, closed: bool, encode: string -> seq<byte>, text: string)
    requires n <= |TryBlock|
    ensures var trace := Performed(n, closed, encode, text);
      forall k | 0 <= k < |trace| && trace[k].Write? :: Connect in trace[..k]
  {
    PerformedOps(n, encode, text);
    var full := [Create(SppUuid), Connect, Write(encode(text + "\n")), Write(PaperFeed), Write(FullCut), Flush];
    var trace := Performed(n, closed, encode, text);
    assert trace == full[..n] + (if closed then [Close] else []);
    forall k | 0 <= k < |trace| && trace[k].Write?
      ensures Connect in trace[..k]
    {
      assert 2 <= k < n;
      assert trace[1] == full[1];
      assert trace[..k][1] == Connect;
    }
  }

  /** The close comes last and only when the socket was created; on a full run the flush precedes it. */
  lemma PerformedClosesLast(n: nat, closed: bool, encode: string -> seq<byte>, text: string)
    requires n <= |TryBlock|
    ensures var trace := Performed(n, closed, encode, text);
      && multiset(trace)[Close] == (if closed then 1 else 0)
      && (closed ==> trace[|trace| - 1] == Close)
      && (n == |TryBlock| && closed ==> trace[|trace| - 2] == Flush)
  {
    PerformedOps(n, encode, text);
    var ops := OpsOf(TryBlock[..n], encode, text);
    assert Close !in ops;
  }

  /** Up to the connect call nothing is written. */
  lemma WrittenBeforeConnect(n: nat, encode: string -> seq<byte>, text: string)
    requires n <= 2
    ensures Written(OpsOf(TryBlock[..n], encode, text)) == []
  {
    assert TryBlock[..0] == [];
    if n >= 1 {
      WrittenStep(1, encode, text);
      CallWrites(0, encode, text);
    }
    if n == 2 {
      WrittenStep(2, encode, text);
      CallWrites(1, encode, text);
    }
  }

  /** A run that stops at or before the connect call wrote nothing. */
  lemma PerformedBeforeConnect(n: nat, closed: bool, encode: string -> seq<byte>, text: string)
    requires n <= 2
    ensures Written(Performed(n, closed, encode, text)) == []
  {
    WrittenBeforeConnect(n, encode, text);
    if closed {
      WrittenClose(OpsOf(TryBlock[..n], encode, text));
    }
  }

  /** A run that stops at the create call never connected. */
  lemma PerformedCreateOnly(n: nat, closed: bool, encode: string -> seq<byte>, text: string)
    requires n <= 1
    ensures Connect !in Performed(n, closed, encode, text)
  {
    var ops := OpsOf(TryBlock[..n], encode, text);
    assert n == 1 ==> ops[0] == Create(SppUuid);
  }

  /**
   * `printText`. Returns whether printing succeeded and the operations performed on the socket,
   * including the one that threw.
   */
  method PrintText(env: Env, encode: string -> seq<byte>, text: string) returns (ok: bool, trace: seq<Op>)
    // permission fast-fail: nothing is created, connected or closed
    ensures PermissionDenied(env) ==> !ok && trace == []
    // success exactly when no call of the try block throws; a failing close does not matter
    ensures ok <==> !PermissionDenied(env) && TryBlockSucceeds(env)
    // the exact payload, flushed, then the socket is closed
    ensures ok ==> Written(trace) == Payload(encode, text)
    ensures ok ==> |trace| >= 2 && trace[|trace| - 2] == Flush
    // a failed run never writes anything but a prefix of the payload
    ensures Written(trace) <= Payload(encode, text)
    // the socket is opened for the SPP service, once, before anything else
    ensures trace != [] ==> trace[0] == Create(SppUuid) && multiset(trace)[Create(SppUuid)] == 1
    // nothing is written before the connect call
    ensures forall k | 0 <= k < |trace| && trace[k].Write? :: Connect in trace[..k]
    // a created socket is closed exactly once, as the very last operation; an uncreated one never
    ensures multiset(trace)[Close] == (if SocketCreated(env) then 1 else 0)
    ensures SocketCreated(env) ==> trace[|trace| - 1] == Close
    // the run stops at the first call that throws: exactly the calls reached, then the close
    ensures !PermissionDenied(env) ==> trace == Performed(Reached(env.failing), SocketCreated(env), encode, text)
    // a socket that was never created is never connected or written to; a failed connect writes nothing
    ensures !SocketCreated(env) ==> Connect !in trace && Written(trace) == []
    ensures ConnectSocket in env.failing ==> Written(trace) == []
  {
    if PermissionDenied(env) {
      return false, [];
    }
    var n, threw, ops := RunTryBlock(env, encode, text);
    ok := !threw;
    // finally: `socket` is non-null exactly when the create call returned; an IOException from close is swallowed
    var created := CreateSocket !in env.failing;
    trace := ops + (if created then [Close] else []);
    PerformedWritten(n, created, encode, text);
    PerformedCreatesOnce(n, created, encode, text);
    PerformedConnectsBeforeWriting(n, created, encode, text);
    PerformedClosesLast(n, created, encode, text);
    if n <= 2 {
      PerformedBeforeConnect(n, created, encode, text);
    }
    if n <= 1 {
      PerformedCreateOnly(n, created, encode, text);
    }
  }

  /** Where the loop over the `try` block stops, the calls reached are the ones `Reached` counts. */
  lemma TryBlockExit(failing: set<Call>, n: nat, threw: bool)
    requires n <= |TryBlock| && (n == |TryBlock| || threw)
    requires !threw ==> forall j | 0 <= j < n :: TryBlock[j] !in failing
    requires threw ==> 0 < n && TryBlock[n - 1] in failing && forall j | 0 <= j < n - 1 :: TryBlock[j] !in failing
    ensures 0 < n && n == Reached(failing)
    ensures threw <==> exists c | c in TryBlock :: c in failing
  {
    ReachedUnique(failing, n);
    if threw {
      assert TryBlock[n - 1] in TryBlock;
    }
  }

  /**
   * The `try` block of `printText`: its calls in order, up to and including the first one that
   * throws. Returns how many calls were reached, whether one threw, and the operations performed.
   */
  method RunTryBlock(env: Env, encode: string -> seq<byte>, text: string) returns (n: nat, threw: bool, trace: seq<Op>)
    ensures 0 < n <= |TryBlock|
    ensures trace == OpsOf(TryBlock[..n], encode, text)
    ensures threw <==> !TryBlockSucceeds(env)
    ensures !threw ==> n == |TryBlock|
    // the first failing call ends the block
    ensures threw ==> TryBlock[n - 1] in env.failing && forall j | 0 <= j < n - 1 :: TryBlock[j] !in env.failing
    ensures n == Reached(env.failing)
  {
    trace := [];
    threw := false;
    n := 0;
    while n < |TryBlock| && !threw
      invariant 0 <= n <= |TryBlock|
      invariant trace == OpsOf(TryBlock[..n], encode, text)
      invariant !threw ==> forall j | 0 <= j < n :: TryBlock[j] !in env.failing
      invariant threw ==> 0 < n && TryBlock[n - 1] in env.failing && forall j | 0 <= j < n - 1 :: TryBlock[j] !in env.failing
    {
      var call := TryBlock[n];
      assert TryBlock[..n + 1] == TryBlock[..n] + [call];
      trace := trace + [OpOf(call, encode, text)];
      threw := call in env.failing;   // IOException: control leaves the try block for the catch
      n := n + 1;
    }
    TryBlockExit(env.failing, n, threw);
  }
}

=== FILE: status_color.dfy ===
/**
 * The colour of the status card: a priority-ordered reading of the status text. Failure words
 * win over success words; anything else is neutral.
 */
module StatusColor {
  import opened Text
  import opened Controller

  /** errorContainer, primaryContainer, surfaceVariant. */
  datatype Tone = ErrorTone | SuccessTone | NeutralTone

  predicate FailureWord(status: string) {
    Contains(status, "Error") || Contains(status, "Gagal")
  }

  predicate SuccessWord(status: string) {
    Contains(status, "Terhubung") || Contains(status, "Berhasil")
  }

  /** `statusColor`: failure words are checked first, so a status holding both kinds reads as an error. */
  function Classify(status: string): (t: Tone)
    ensures t == ErrorTone <==> Contains(status, "Error") || Contains(status, "Gagal")
    ensures t == SuccessTone <==> !FailureWord(status) && (Contains(status, "Terhubung") || Contains(status, "Berhasil"))
    ensures t == NeutralTone <==> !FailureWord(status) && !SuccessWord(status)
  {
    if FailureWord(status) then ErrorTone
    else if SuccessWord(status) then SuccessTone
    else NeutralTone
  }

  /** The first letters of the four marker words. */
  predicate MarkerLead(c: char) {
    c == 'E' || c == 'G' || c == 'T' || c == 'B'
  }

  /** Text in which no marker word can start. */
  predicate Unmarked(s: string) {
    forall i | 0 <= i < |s| :: !MarkerLead(s[i])
  }

  /** Text in which no failure word can start. */
  predicate FailureFree(s: string) {
    forall i | 0 <= i < |s| :: s[i] != 'E' && s[i] != 'G'
  }

  lemma UnmarkedConcat(a: string, b: string)
    requires Unmarked(a) && Unmarked(b)
    ensures Unmarked(a + b)
  {
  }

  lemma FailureFreeConcat(a: string, b: string)
    requires FailureFree(a) && FailureFree(b)
    ensures FailureFree(a + b)
  {
  }

  /** Failure-free text holds no failure word. */
  lemma FailureFreeNeverFails(s: string)
    requires FailureFree(s)
    ensures !FailureWord(s)
  {
    FailureFreeLacks(s);
    AbsentLead(s, "Error");
    AbsentLead(s, "Gagal");
  }

  /** Failure-free text holds neither failure word's first letter. */
  lemma FailureFreeLacks(s: string)
    requires FailureFree(s)
    ensures 'E' !in s && 'G' !in s
  {
  }

  /** Unmarked text is neutral. */
  lemma NoMarkerNeutral(s: string)
    requires Unmarked(s)
    ensures Classify(s) == NeutralTone
  {
    AbsentLead(s, "Error");
    AbsentLead(s, "Gagal");
    AbsentLead(s, "Terhubung");
    AbsentLead(s, "Berhasil");
  }

  /** An unmarked label in front of a text leaves the text's tone unchanged. */
  lemma ToneOfLabelled(tag: string, s: string)
    requires Unmarked(tag)
    ensures Classify(tag + s) == Classify(s)
  {
    ContainsPastPrefix(tag, s, "Error");
    ContainsPastPrefix(tag, s, "Gagal");
    ContainsPastPrefix(tag, s, "Terhubung");
    ContainsPastPrefix(tag, s, "Berhasil");
  }

  /** The failure statuses around their failure words. */
  lemma FailureParts(message: string)
    ensures ConnectionErrorStatus(message) == "Connection " + "Error" + (": " + message)
    ensures CreateErrorStatus(message) == "Error" + (": " + message)
    ensures PrintFailedStatus == "Gagal" + " Mencetak"
  {
    assert "Connection Error: " == "Connection " + "Error" + ": ";
    assert "Error: " == "Error" + ": ";
  }

  /** Every failure the controller reports turns the card red, whatever the message. */
  lemma FailuresAreRed(message: string)
    ensures Classify(ConnectionErrorStatus(message)) == ErrorTone
    ensures Classify(CreateErrorStatus(message)) == ErrorTone
    ensures Classify(PrintFailedStatus) == ErrorTone
  {
    FailureParts(message);
    OccursBetween("Connection ", "Error", ": " + message);
    OccursFirst("Error", ": " + message);
    OccursFirst("Gagal", " Mencetak");
  }

  /** The paper widths are unmarked. */
  lemma PaperSizeUnmarked(size: string)
    requires PaperSize(size)
    ensures Unmarked(size)
  {
  }

  /** The automatic-print banner around its success word. */
  lemma AutoPrintedParts(size: string)
    ensures AutoPrintedStatus(size) == "Cetak Otomatis " + "Berhasil" + (" (" + size + ")")
  {
    assert "Cetak Otomatis Berhasil (" == "Cetak Otomatis " + "Berhasil" + " (";
  }

  /** A successful automatic print turns the card green. */
  lemma AutoPrintIsGreen(size: string)
    requires PaperSize(size)
    ensures Classify(AutoPrintedStatus(size)) == SuccessTone
  {
    AutoPrintedParts(size);
    OccursBetween("Cetak Otomatis ", "Berhasil", " (" + size + ")");
    PaperSizeUnmarked(size);
    assert FailureFree(size);
    assert FailureFree("Cetak Otomatis Berhasil (") && FailureFree(")");
    FailureFreeConcat("Cetak Otomatis Berhasil (", size);
    FailureFreeConcat("Cetak Otomatis Berhasil (" + size, ")");
    FailureFreeNeverFails(AutoPrintedStatus(size));
  }

  /** The connected banner around its success word. */
  lemma ConnectedParts(code: string)
    ensures ConnectedStatus(code) == "Terhubung" + ("! ID: " + code)
    ensures FailureFree("Terhubung! ID: ")
  {
    assert "Terhubung! ID: " == "Terhubung" + "! ID: ";
  }

  /**
   * The connected banner is green, unless the challenge code itself holds "Error" or "Gagal",
   * in which case it is red.
   */
  lemma ConnectedTone(code: string)
    ensures Classify(ConnectedStatus(code)) == (if FailureWord(code) then ErrorTone else SuccessTone)
  {
    var tag := "Terhubung! ID: ";
    ConnectedParts(code);
    OccursFirst("Terhubung", "! ID: " + code);
    FailureFreeLacks(tag);
    ContainsPastPrefix(tag, code, "Error");
    ContainsPastPrefix(tag, code, "Gagal");
  }

  /** The fixed status texts are unmarked. */
  lemma FixedStatusesUnmarked()
    ensures Unmarked(ReadyStatus) && Unmarked(ConnectingStatus) && Unmarked(DoneStatus)
    ensures Unmarked(DisconnectedStatus) && Unmarked(NoPrinterStatus)
  {
    NoPrinterPhrases();
    UnmarkedConcat("Data diterima tapi belum ", "ada printer dipilih!");
  }

  /** The statuses of an idle, connecting or disconnected session stay neutral. */
  lemma SessionStatusesNeutral()
    ensures Classify(ReadyStatus) == NeutralTone
    ensures Classify(ConnectingStatus) == NeutralTone
    ensures Classify(DisconnectedStatus) == NeutralTone
  {
    FixedStatusesUnmarked();
    NoMarkerNeutral(ReadyStatus);
    NoMarkerNeutral(ConnectingStatus);
    NoMarkerNeutral(DisconnectedStatus);
  }

  /** The manual print's statuses stay neutral, whatever the print did. */
  lemma ManualPrintNeutral(size: string)
    requires PaperSize(size)
    ensures Classify(PrintingStatus(size)) == NeutralTone
    ensures Classify(DoneStatus) == NeutralTone
  {
    PaperSizeUnmarked(size);
    UnmarkedConcat("Mencetak (", size);
    UnmarkedConcat("Mencetak (" + size, ")...");
    NoMarkerNeutral(PrintingStatus(size));
    FixedStatusesUnmarked();
    NoMarkerNeutral(DoneStatus);
  }

  /** A frame dropped for want of a printer leaves the card neutral. */
  lemma NoPrinterNeutral()
    ensures Classify(NoPrinterStatus) == NeutralTone
  {
    FixedStatusesUnmarked();
    NoMarkerNeutral(NoPrinterStatus);
  }

  /** Labelled statuses take the tone of what they quote: the frame, the close reason, the device name. */
  lemma QuotedTone(text: string, reason: string, d: Device)
    ensures Classify(IncomingStatus(text)) == Classify(text)
    ensures Classify(ServerClosingStatus(reason)) == Classify(reason)
    ensures Classify(SelectedStatus(d)) == Classify(d.name.GetOr("null"))
  {
    ToneOfLabelled("Pesan masuk: ", text);
    ToneOfLabelled("Server closing: ", reason);
    ToneOfLabelled("Printer dipilih: ", d.name.GetOr("null"));
  }
}

=== FILE: text.dfy ===
/** The few Kotlin string queries the application relies on: `contains` and `isBlank`. */
module Text {

  /** `sub` occurs in `s` starting at index `i`. */
  predicate OccursAt(s: string, sub: string, i: int) {
    0 <= i && i + |sub| <= |s| && s[i..i + |sub|] == sub
  }

  /** Kotlin's `CharSequence.contains(other)`: a case-sensitive substring test. */
  predicate Contains(s: string, sub: string) {
    exists i | 0 <= i <= |s| - |sub| :: OccursAt(s, sub, i)
  }

  /** Kotlin's `Char.isWhitespace()` on the JVM: `Character.isWhitespace(c) || Character.isSpaceChar(c)`. */
  function IsWhitespace(c: char): (r: bool)
    // no visible ASCII character is whitespace; space, tab, line feed and carriage return are
    ensures '!' <= c <= '~' ==> !r
    ensures c == ' ' || c == '\t' || c == '\n' || c == '\r' ==> r
  {
    var n := c as int;
    || 0x09 <= n <= 0x0D      // tab, line feed, vertical tab, form feed, carriage return
    || 0x1C <= n <= 0x20      // file, group, record and unit separators; space
    || n == 0xA0 || n == 0x1680
    || 0x2000 <= n <= 0x200A
    || n == 0x2028 || n == 0x2029 || n == 0x202F || n == 0x205F || n == 0x3000
  }

  /** Kotlin's `CharSequence.isBlank()`: empty, or whitespace only. */
  predicate IsBlank(s: string) {
    forall i | 0 <= i < |s| :: IsWhitespace(s[i])
  }

  /** A one-character search is plain membership. */
  lemma ContainsChar(s: string, c: char)
    ensures Contains(s, [c]) <==> c in s
  {
    if c in s {
      var i :| 0 <= i < |s| && s[i] == c;
      assert OccursAt(s, [c], i);
    }
    if Contains(s, [c]) {
      var i :| 0 <= i <= |s| - 1 && OccursAt(s, [c], i);
      assert s[i..i + 1][0] == s[i];
    }
  }

  /** A string in which the first character of `sub` never appears cannot contain `sub`. */
  lemma AbsentLead(s: string, sub: string)
    requires |sub| > 0 && sub[0] !in s
    ensures !Contains(s, sub)
  {
    forall i | 0 <= i <= |s| - |sub|
      ensures !OccursAt(s, sub, i)
    {
      assert s[i] != sub[0];
    }
  }

  /** Prefixing `s` with text that never holds the first character of `sub` neither creates nor hides an occurrence. */
  lemma ContainsPastPrefix(p: string, s: string, sub: string)
    requires |sub| > 0 && sub[0] !in p
    ensures Contains(p + s, sub) <==> Contains(s, sub)
  {
    if Contains(s, sub) {
      var i :| 0 <= i <= |s| - |sub| && OccursAt(s, sub, i);
      assert (p + s)[|p| + i..|p| + i + |sub|] == s[i..i + |sub|];
      assert OccursAt(p + s, sub, |p| + i);
    }
    if Contains(p + s, sub) {
      var i :| 0 <= i <= |p + s| - |sub| && OccursAt(p + s, sub, i);
      assert (p + s)[i] == sub[0] by {
        assert (p + s)[i..i + |sub|][0] == (p + s)[i];
      }
      if i < |p| {
        assert false;
      }
      assert (p + s)[i..i + |sub|] == s[i - |p|..i - |p| + |sub|];
      assert OccursAt(s, sub, i - |p|);
    }
  }

  /** `sub` occurs at the start of `sub + q`. */
  lemma OccursFirst(sub: string, q: string)
    ensures Contains(sub + q, sub)
  {
    assert (sub + q)[..|sub|] == sub;
    assert OccursAt(sub + q, sub, 0);
  }

  /** `sub` occurs in `p + sub + q` right after `p`. */
  lemma OccursBetween(p: string, sub: string, q: string)
    ensures Contains(p + sub + q, sub)
  {
    var s := p + sub + q;
    assert s[|p|..|p| + |sub|] == sub;
    assert OccursAt(s, sub, |p|);
  }

  /**
   * A search that tries each start in turn: `sub` is a prefix here, or is found further on.
   * It is the reference reading of `Contains`.
   */
  predicate FoundFrom(s: string, sub: string)
    decreases |s|
  {
    sub <= s || (s != [] && FoundFrom(s[1..], sub))
  }

  /** An occurrence past the first character is an occurrence in the rest, one place earlier. */
  lemma OccursShift(s: string, sub: string, i: int)
    requires s != [] && 0 < i
    ensures OccursAt(s, sub, i) <==> OccursAt(s[1..], sub, i - 1)
  {
    if i + |sub| <= |s| {
      assert s[1..][i - 1..i - 1 + |sub|] == s[i..i + |sub|];
    }
  }

  /** `Contains` agrees with the start-by-start search, in both directions. */
  lemma {:induction false} ContainsIsSearch(s: string, sub: string)
    ensures Contains(s, sub) <==> FoundFrom(s, sub)
    decreases |s|
  {
    if s != [] {
      ContainsIsSearch(s[1..], sub);
    }
    if Contains(s, sub) {
      var i :| 0 <= i <= |s| - |sub| && OccursAt(s, sub, i);
      if i == 0 {
        assert s[..|sub|] == sub;
      } else {
        OccursShift(s, sub, i);
      }
    }
    if FoundFrom(s, sub) && !(sub <= s) {
      var j :| 0 <= j <= |s[1..]| - |sub| && OccursAt(s[1..], sub, j);
      OccursShift(s, sub, j + 1);
    }
    if sub <= s {
      assert OccursAt(s, sub, 0);
    }
  }

  /** What remains once leading whitespace is dropped: the reference reading of `isBlank` is "nothing". */
  function TrimStart(s: string): (t: string)
    ensures |t| <= |s| && t == s[|s| - |t|..]
    ensures t == [] || !IsWhitespace(t[0])
    decreases |s|
  {
    if s != [] && IsWhitespace(s[0]) then TrimStart(s[1..]) else s
  }

  /** A blank text is exactly one that trims to nothing. */
  lemma {:induction false} BlankIsTrimmedEmpty(s: string)
    ensures IsBlank(s) <==> TrimStart(s) == []
    decreases |s|
  {
    if s != [] {
      BlankIsTrimmedEmpty(s[1..]);
      if IsWhitespace(s[0]) {
        assert IsBlank(s) <==> IsBlank(s[1..]) by {
          if IsBlank(s[1..]) {
            forall i | 0 <= i < |s|
              ensures IsWhitespace(s[i])
            {
              if i > 0 {
                assert s[i] == s[1..][i - 1];
              }
            }
          }
        }
      }
    }
  }
}
